=== FILE: README.md ===
# basal-ui accordion and dialog: a Dafny model

This project models the decision logic of the basal-ui accordion and dialog
components as pure Dafny functions over small datatypes, and proves properties of
that logic. React plumbing is left out: hooks, refs, memoisation, context providers
and rendering become explicit parameters and return values. The model covers:

- **Single-mode selection** (`useSingleAccordionState`), in `SingleState`:
  - Ownership (controlled or uncontrolled) is fixed at mount from the truthiness of
    `value`, and the store is seeded from `preExpand`.
  - `onToggle(id)` either writes `""`, writes `id` or writes nothing. The write goes
    to the internal store, or to the caller's callback in controlled mode.
  - The `trim()` test is modelled exactly, over the ECMAScript whitespace and
    line-terminator characters (`JsText`).
- **Root dispatch** (`Accordion`), in `AccordionRoot`: `type` selects the single or
  the multiple variant. Any other value gives the fixed error message.
- **Item context** (`AccordionItemProvider`, `useAccordionItemContext`), in
  `ItemContext`:
  - header and content ids built from the generated id;
  - `isExpanded` computed by JavaScript's `includes`;
  - the bound `onToggle`;
  - the missing-provider error.
- **Header controls** (`AccordionButton` and its older copy `AccordionHeader`), in
  `HeaderKeys`: the key to toggle/focus-move/`preventDefault` table and the ARIA
  attribute binding. Keys are an enum (`Keys`).
- **Sibling navigation**, in `RovingFocus`. This one is derived from the tests: the
  helpers in `utils/focus` are not part of this model. It gives circular
  next/previous and jumps to the first or last header.
- **A composed single-mode accordion**, in `AccordionSession`. Key presses and
  header clicks drive the root hook. It states the split between activation and
  navigation, and exclusivity over whole event sequences:
  - Exclusivity is proved for exact membership of an item id in the selection.
  - It carries over to `isExpanded` as the program computes it (with `includes`)
    only when no item id occurs inside another (`NoNesting`), as for the test items
    "one", "two" and "three". Without that condition it fails: see Findings.
- **Dialog focus trap**, in `Focusable` and `Dialog`:
  - the focusable-descendant tree walk, as a stack-based method proved equal to
    "filter of the pre-order";
  - first/last extraction;
  - the Escape/Tab/Shift+Tab keydown decision;
  - initial focus, gating on `open`, and the click-outside close;
  - the dialog context and its missing-context error.

Three behaviours of the code that the model keeps as written:

- The whitespace guard of `useSingleAccordionState.ts:40` means a non-empty,
  whitespace-only value freezes the selection. `SingleState.BlankFreezes` states
  this, and `SingleState.AgreesWithPolicyIff` shows that it is the only way the hook
  departs from the plain single-mode contract.
- In the hook, an absent `allowZeroCollapse` reads as false. Any default comes from
  `AccordionSingle`, which is not part of this model.
- `AccordionButton` reads `open` from the item context
  (`packages/components/accordion/src/AccordionButton.tsx:19`). The context type
  declares only `isExpanded`
  (`packages/components/accordion/src/useAccordionItemContext.tsx:6-12`). The
  model does not choose between the two readings:
  - `HeaderKeys.ButtonAttributes` takes `open` as a parameter.
  - `HeaderKeys.ButtonOpenReadings` states both readings. With the context as
    declared, `aria-expanded` is never rendered. If the context carried
    `open == isExpanded`, the button would match the older header.

## Model

| member | source | states |
|---|---|---|
| JsText.TrimStart | src/components/Accordion/useSingleAccordionState.ts:40 | the leading-whitespace strip of `trim()` returns the longest suffix that does not start with a whitespace or line-terminator character; everything dropped is whitespace |
| JsText.TrimEnd | src/components/Accordion/useSingleAccordionState.ts:40 | the trailing strip of `trim()` returns the longest prefix that does not end in whitespace; everything dropped is whitespace |
| JsText.TrimEmptyIff | src/components/Accordion/useSingleAccordionState.ts:40 | `value.trim().length > 0` holds iff some character of the value is not whitespace |
| JsText.IncludesIff | packages/components/accordion/src/useAccordionItemContext.tsx:30 | `String.prototype.includes` holds iff the needle occurs at some offset of the string |
| JsText.LongerNotIncluded | packages/components/accordion/src/useAccordionItemContext.tsx:30 | a string never includes a longer string |
| SingleState.Mount | src/components/Accordion/useSingleAccordionState.ts:14-21 | ownership is controlled iff `value` is present and non-empty; uncontrolled starts at `preExpand` or `""`; the controlled store starts at `""` |
| SingleState.Decide | src/components/Accordion/useSingleAccordionState.ts:35-42 | toggling writes nothing iff the value is non-empty whitespace and this is not a zero-collapse of that value; otherwise it writes `""` or the id; it writes `""` exactly on a zero-collapse of the open id (unless the id is `""`) |
| SingleState.Toggle | src/components/Accordion/useSingleAccordionState.ts:23-45 | ownership is preserved; with no writer toggling is a no-op; a controlled hook never writes its store and passes the decided value to the caller's callback; an uncontrolled hook stores it and calls no callback |
| SingleState.OwnershipFixed | src/components/Accordion/useSingleAccordionState.ts:14 | after any sequence of toggles the ownership mode is the one fixed at mount |
| SingleState.ControlledIsPure | src/components/Accordion/useSingleAccordionState.ts:23-27 | in controlled mode any sequence of toggles leaves the hook unchanged, and the reported value is always the caller's `value` |
| SingleState.CollapseThenReopen | src/components/Accordion/useSingleAccordionState.ts:35-38 | with zero-collapse, toggling the open id empties the selection, and toggling it again reopens the same id |
| SingleState.NoZeroCollapseKeepsOpen | src/components/Accordion/useSingleAccordionState.ts:35-42 | without zero-collapse, toggling the open id leaves the hook unchanged |
| SingleState.OpenReplaces | src/components/Accordion/useSingleAccordionState.ts:40-42 | from an empty or non-blank value, toggling another id makes exactly that id the open one |
| SingleState.BlankFreezes | src/components/Accordion/useSingleAccordionState.ts:40 | when the value is non-empty whitespace only, toggling any other id writes nothing in either ownership mode |
| SingleState.AgreesWithPolicyIff | src/components/Accordion/useSingleAccordionState.ts:35-42 | the uncontrolled hook gives the single-mode contract (close or keep the open id, else open the new one) iff it is not the blank-value case |
| SingleState.RunStaysAmongItems | src/components/Accordion/useSingleAccordionState.ts:29-45 | toggling only item ids keeps the selection `""` or an item id; without zero-collapse, and when `""` is not an item id, a non-empty selection stays non-empty |
| AccordionRoot.RenderAccordion | packages/components/accordion/src/Accordion.tsx:31-51 | `single` gives the single variant and `multiple` the multiple one, both with the props forwarded unchanged; any other type fails with the fixed message |
| AccordionRoot.DispatchDependsOnlyOnKind | packages/components/accordion/src/Accordion.tsx:32-46 | the variant chosen depends on `type` alone, not on any other prop |
| ItemContext.Provide | packages/components/accordion/src/useAccordionItemContext.tsx:25-35 | `itemId` is passed through; the header and content ids are the prefixed generated id and always differ; `isExpanded` is false for an absent value, list membership for a list, substring occurrence for a string; the item's toggle calls the root's with exactly this `itemId`, and only if the root has one |
| ItemContext.UseItemContext | packages/components/accordion/src/useAccordionItemContext.tsx:44-51 | succeeds with the context iff one is provided; otherwise fails with the missing-provider message |
| ItemContext.GeneratedIdsDistinct | packages/components/accordion/src/useAccordionItemContext.tsx:28-29 | equal header ids, or equal content ids, come from the same generated id; no header id equals any content id |
| ItemContext.SubstringMarksTwoItemsOpen | packages/components/accordion/src/useAccordionItemContext.tsx:30 | with string value "one", both item "on" and item "one" report expanded; exact membership reports only "one" |
| ItemContext.ExactIsExclusive | packages/components/accordion/src/useAccordionItemContext.tsx:30 | with exact membership, at most one item of a string value is expanded; it agrees with `includes` on absent and list values, and implies it on strings |
| HeaderKeys.ButtonKeyDown | packages/components/accordion/src/AccordionButton.tsx:21-50 | toggling and focus moves never happen together; Space and Enter toggle (when there is an `onToggle`); Down, Up, Home and End request next, previous, first and last; `preventDefault` is called for every handled key except End |
| HeaderKeys.HeaderKeyDown | src/components/Accordion/AccordionHeader.tsx:21-50 | the older header never both toggles and moves; End moves to last without `preventDefault`; unlisted keys do nothing |
| HeaderKeys.HeaderMatchesButton | src/components/Accordion/AccordionHeader.tsx:25-47 | the older header's key table equals the button's for every key |
| HeaderKeys.EndIsTheOnlyUnsuppressedMove | packages/components/accordion/src/AccordionButton.tsx:31-45 | a key moves focus without `preventDefault` iff it is End |
| HeaderKeys.ButtonAttributes | packages/components/accordion/src/AccordionButton.tsx:54-57 | the button's id is `headerId`, `aria-controls` is `contentId`, and `aria-expanded` and `aria-disabled` are both the context's `open` |
| HeaderKeys.HeaderAttributes | src/components/Accordion/AccordionHeader.tsx:55-58 | the header's id is `headerId`, `aria-controls` is `contentId`, and `aria-expanded` and `aria-disabled` both equal `isExpanded` |
| HeaderKeys.ButtonOpenReadings | packages/components/accordion/src/AccordionButton.tsx:19 | with no `open` in the context the button never renders `aria-expanded`, unlike the header; with `open == isExpanded` the two agree |
| RovingFocus.Target | packages/components/accordion/__test__/Accordion.test.tsx:259-323 | (test-derived) the target is a header; next and previous are the neighbours in circular order, modulo the header count; Home goes to the first, End to the last |
| RovingFocus.NextPreviousInverse | packages/components/accordion/__test__/Accordion.test.tsx:259-301 | (test-derived) next and previous undo each other |
| RovingFocus.FullCycle | packages/components/accordion/__test__/Accordion.test.tsx:281-290 | (test-derived) moving next once per header returns to the starting header |
| AccordionSession.PressKey | packages/components/accordion/src/AccordionButton.tsx:25-47 | a key press keeps focus on a header and keeps the ownership mode |
| AccordionSession.ActivationNavigationPartition | packages/components/accordion/src/AccordionButton.tsx:25-47 | an activation key never moves focus; a navigation key never changes the selection; any other key changes nothing |
| AccordionSession.ActivationTogglesFocusedItem | packages/components/accordion/src/useAccordionItemContext.tsx:31-32 | activation toggles exactly the focused item's id in the root hook |
| AccordionSession.ClickHeader | packages/components/accordion/src/AccordionButton.tsx:58 | a click never moves the requested focus and keeps the ownership mode |
| AccordionSession.ClickTogglesItem | src/components/Accordion/AccordionHeader.tsx:59 | a click on a header toggles exactly that header's item id in the root hook, through the item context's `onToggle` |
| AccordionSession.Handle | packages/components/accordion/src/AccordionButton.tsx:25-58 | a key press or click keeps focus on a header |
| AccordionSession.HandleKeepsValid | src/components/Accordion/useSingleAccordionState.ts:35-42 | for an uncontrolled hook whose item ids are non-empty and pairwise distinct, any key press or click keeps the selection `""` or an item id; without zero-collapse it never empties a non-empty selection |
| AccordionSession.PressKeyKeepsValid | src/components/Accordion/useSingleAccordionState.ts:35-42 | for an uncontrolled hook whose item ids are non-empty and pairwise distinct, a key press keeps the selection `""` or an item id; without zero-collapse it never empties a non-empty selection |
| AccordionSession.ProvidedMatchesExact | packages/components/accordion/src/useAccordionItemContext.tsx:30 | for an uncontrolled hook whose item ids are non-empty and pairwise distinct, when no item id occurs inside another, the item context's `isExpanded` (by `includes`) equals exact membership of the item id in the selection |
| AccordionSession.ProvidedSetIsExact | packages/components/accordion/src/useAccordionItemContext.tsx:30 | under the same condition, the set of items the program reports expanded is the exact set |
| AccordionSession.Exclusive | src/components/Accordion/useSingleAccordionState.ts:40-42 | for an uncontrolled hook whose item ids are non-empty and pairwise distinct, by exact membership at most one item is expanded, and exactly one once the selection is an item; as the program reports it (`includes`) only under `NoNesting` (see ExclusiveForever and Findings) |
| AccordionSession.ExclusiveForever | packages/components/accordion/__test__/Accordion.test.tsx:106-120 | for an uncontrolled hook whose item ids are non-empty and pairwise distinct, without zero-collapse, once an item is open, exactly one item is expanded after any sequence of key presses and clicks, by exact membership; and as the item contexts report it when no item id occurs inside another |
| AccordionSession.TestItemsDoNotNest | packages/components/accordion/__test__/Accordion.test.tsx:12-33 | the test items "one", "two" and "three" satisfy `NoNesting`, so the program's own `isExpanded` is exclusive for them |
| AccordionSession.ClickTwiceScenario | packages/components/accordion/__test__/Accordion.test.tsx:90-104 | with zero-collapse, clicking the first header opens only its item, and clicking it again closes every item |
| AccordionSession.PreExpandScenario | packages/components/accordion/__test__/Accordion.test.tsx:73-88 | with `preExpand` "two" and items one, two, three, only the second item is expanded at mount |
| AccordionSession.WrapScenario | packages/components/accordion/__test__/Accordion.test.tsx:281-301 | Down on the last of three headers focuses the first; Up on the first focuses the last |
| Focusable.Filter | packages/components/dialog/dist/basal-ui-dialog.cjs.dev.js:47-59 | the walker keeps exactly the accepted elements of the walk, never more than it visited |
| Focusable.CollectFocusable | packages/components/dialog/dist/basal-ui-dialog.cjs.dev.js:45-62 | the tree walker's result is exactly the accepted proper descendants in document order |
| Focusable.FirstLast | packages/components/dialog/dist/basal-ui-dialog.cjs.dev.js:64-72 | empty iff nothing is focusable; otherwise the first and the last focusable element |
| Focusable.CollectedIff | packages/components/dialog/dist/basal-ui-dialog.cjs.dev.js:49-53 | an element is collected iff it is a proper descendant, not hidden, not disabled and has `tabIndex >= 0` |
| Focusable.SkipDoesNotPrune | packages/components/dialog/dist/basal-ui-dialog.cjs.dev.js:47-59 | a skipped element is not collected, but the accepted elements below it are |
| Focusable.RootNotCollected | packages/components/dialog/dist/basal-ui-dialog.cjs.dev.js:47-59 | the walk's root is never among the collected elements |
| Focusable.CollectedOnce | packages/components/dialog/dist/basal-ui-dialog.cjs.dev.js:57-59 | in a document of distinct elements, each element is collected at most once |
| Dialog.Provide | packages/components/dialog/dist/basal-ui-dialog.cjs.dev.js:164-174 | the dialog context carries the props' `open` and `onClose` |
| Dialog.UseDialogContext | packages/components/dialog/dist/basal-ui-dialog.cjs.dev.js:16-24 | succeeds with the context iff one is provided; otherwise fails with the compound-component message |
| Dialog.ContentView | packages/components/dialog/src/DialogContent.tsx:89-103 | content is rendered iff open; rendered content is a modal `dialog`, not hidden, in data-state `open` |
| Dialog.InitialFocus | packages/components/dialog/src/DialogContent.tsx:23-35 | on mount focus goes to the first focusable element; it goes nowhere iff there is no content or nothing focusable |
| Dialog.MountFocus | packages/components/dialog/src/DialogContent.tsx:23-35 | the mount-time effect focuses the first focusable element only if the dialog was open at mount, and focuses nothing when it was closed |
| Dialog.ClosedAtMountNeverFocuses | packages/components/dialog/src/DialogContent.tsx:89-91 | a dialog content first rendered closed gets no initial focus |
| Dialog.HandleKeydown | packages/components/dialog/src/DialogContent.tsx:56-87 | Escape closes and does nothing else; only Escape closes; `preventDefault` comes exactly with a focus move, which only Tab causes, to an element inside the content; other keys, and any key without content, do nothing |
| Dialog.ClickOutside | packages/components/dialog/src/DialogContent.tsx:37-44 | a click closes iff the content exists and the target is neither the content nor any element inside it |
| Dialog.ShiftTabWrapsToLast | packages/components/dialog/src/DialogContent.tsx:73-77 | Shift+Tab on the first focusable element calls `preventDefault` and focuses the last |
| Dialog.TabWrapsToFirst | packages/components/dialog/src/DialogContent.tsx:78-82 | Tab on the last focusable element calls `preventDefault` and focuses the first |
| Dialog.TabElsewhereDoesNothing | packages/components/dialog/src/DialogContent.tsx:72-84 | Tab off the last element, and Shift+Tab off the first, do nothing |
| Dialog.SingleElementTrapsFocus | packages/components/dialog/src/DialogContent.tsx:67-84 | with one focusable element, Tab and Shift+Tab both keep focus on it |
| Dialog.NoFocusableNoTrap | packages/components/dialog/src/DialogContent.tsx:67-84 | with nothing focusable, Tab does nothing |
| Dialog.RenderedIffOpenProp | packages/components/dialog/src/DialogContent.tsx:89-91 | the content renders iff the `open` prop given to the dialog holds |
| Dialog.ClickInsideKeepsOpen | packages/components/dialog/src/DialogContent.tsx:37-44 | a click on any element inside the content never closes the dialog |

## Left out

- The multiple-mode policy (`AccordionMultiple`) is not modelled. The multiple
  variant appears only as a dispatch target, and as list membership in
  `ItemContext.Includes`.
- AccordionSession.Root: the root context the items read is taken to be exactly
  the single hook's reported value and its `onToggle`. That wiring lives in
  `AccordionSingle` and `useAccordionContext`, which are not modelled, so the
  session's statements about `isExpanded` "as the program computes it" rest on
  this assumption.
- The sibling-focus helpers (`utils/focus`) are not part of this model. Header
  controls emit abstract moves. `RovingFocus` gives them the wrap-around behaviour
  the accordion tests expect, over header indices.
- Id generation (`IdProvider`/`useGenerateId`, and `nanoid` in the older item) is
  foreign and random. The generated id is an opaque string input.
- React mechanics (`useState`, `useRef`, `useMemo`, `useCallback`, `forwardRef`,
  re-render timing) are left out. They become explicit hook records, parameters and
  results.
- Portal, `RemoveScroll` and overlay rendering are DOM plumbing. Registering the
  click listener on `document` is left out; only its close decision is modelled.
- The keyboard-keycode constants are not part of this model. Keys are an enum.
  `AccordionButton` takes its constants from `@basal-ui/keyboard-keycode` and
  `AccordionHeader` from its local `./keyboardKey`; both are mapped to the same
  `Keys.Key` values, so `HeaderKeys.HeaderMatchesButton` holds only insofar as the
  two modules agree.
- Controlled-mode tests are empty and skipped in the source, so nothing was
  derived from them.
- The parts of the dialog bundle that duplicate `DialogContent.tsx` and
  `DialogOverlay.tsx` are modelled from the `src` version.
- The item context is a function of the root context, the generated id and
  `itemId`. Dafny functions are deterministic, so "depends only on these inputs"
  holds by construction and has no lemma of its own.
- Browser focus is modelled only through the move the control requests. A click
  is modelled as the toggle it triggers; the browser focusing the clicked button
  is not modelled, so `ClickHeader` leaves the focused index unchanged.
- Dialog.InitialFocus: it takes the content as a parameter. The effect in
  `DialogContent.tsx:23-35` has an empty dependency list, so it runs once, at
  mount. A content first rendered closed and opened later gets no initial focus
  (`Dialog.MountFocus`, `Dialog.ClosedAtMountNeverFocuses`). Later re-renders are
  not modelled.

## Findings

| source | as written | input that shows it | evidently intended | confidence | as-written member | corrected member |
|---|---|---|---|---|---|---|
| packages/components/accordion/src/useAccordionItemContext.tsx:30 | `value?.includes(itemId)` is a substring test when the single variant's value is a string | value "one", items "on" and "one": both report expanded | exact equality for the single variant's string value, so at most one item is expanded | medium, not executed (the single variant's provider is not part of this model) | ItemContext.SubstringMarksTwoItemsOpen | ItemContext.ExactIsExclusive |

=== FILE: accordion_root.dfy ===
/** The `Accordion` root: its `type` prop selects the single or the multiple variant,
    and any other value is a fatal configuration error. */
module AccordionRoot {
  import opened Wrappers

  /** The fixed message of the configuration error. */
  const InvalidTypeMessage: string :=
    "Invalid Accordion `type` props. It's should be either `single` or `multiple`"

  /** The root's props: the `type` string and everything else, which the root does
      not look at. */
  datatype RootProps<P> = RootProps(kind: string, rest: P)

  /** The variant component the root renders, with the props it forwards. */
  datatype Variant<P> = SingleAccordion(props: RootProps<P>) | MultipleAccordion(props: RootProps<P>)

  /** `renderAccordion`: route on `type`, forwarding the props untouched. */
  function RenderAccordion<P>(props: RootProps<P>): (r: Result<Variant<P>, string>)
    ensures r.Success? <==> props.kind == "single" || props.kind == "multiple"
    ensures r.Success? ==> r.value.props == props
    ensures r.Success? ==> (r.value.SingleAccordion? <==> props.kind == "single")
    ensures r.Failure? ==> r.error == InvalidTypeMessage
  {
    if props.kind == "single" then Success(SingleAccordion(props))
    else if props.kind == "multiple" then Success(MultipleAccordion(props))
    else Failure(InvalidTypeMessage)
  }

  /** The root adds no selection logic: two prop sets with the same `type` render the
      same variant, each carrying its own props. */
  lemma DispatchDependsOnlyOnKind<P>(a: RootProps<P>, b: RootProps<P>)
    requires a.kind == b.kind
    ensures RenderAccordion(a).Success? == RenderAccordion(b).Success?
    ensures RenderAccordion(a).Success? ==>
      RenderAccordion(a).value.SingleAccordion? == RenderAccordion(b).value.SingleAccordion?
  {
  }
}

=== FILE: accordion_session.dfy ===
/** An uncontrolled single-mode accordion put together: the selection hook, each
    item's derived context, the header's key table and the sibling navigation. A
    session is the hook plus the index of the focused header among `items`, the item
    ids in document order. Expanded state is read with exact membership
    (`ItemContext.IsOpenExact`). */
module AccordionSession {
  import opened Wrappers
  import opened Keys
  import JsText
  import SingleState
  import ItemContext
  import HeaderKeys
  import RovingFocus

  datatype Session = Session(hook: SingleState.Hook, focus: nat)

  /** A user event on the accordion: a key press on the focused header, or a click on
      header `index` (its `onClick` is the item context's `onToggle`). */
  datatype Event = Press(key: Key) | Click(index: nat)

  /** Item ids as an accordion renders them: at least one, non-empty, pairwise
      distinct. */
  predicate WellFormedItems(items: seq<string>) {
    && |items| > 0
    && (forall k :: 0 <= k < |items| ==> items[k] != "")
    && (forall j, k :: 0 <= j < k < |items| ==> items[j] != items[k])
  }

  /** The session's selection is nothing, or one of the items. */
  predicate SelectionAmongItems(items: seq<string>, s: Session) {
    s.hook.store == "" || s.hook.store in items
  }

  predicate Valid(items: seq<string>, s: Session) {
    WellFormedItems(items) && !s.hook.controlled && s.focus < |items| && SelectionAmongItems(items, s)
  }

  /** The hook's reported value as the root context hands it to items. */
  function AsRootValue(v: Option<string>): ItemContext.RootValue {
    match v
    case None => ItemContext.Absent
    case Some(s) => ItemContext.Text(s)
  }

  /** The root context: the hook always returns an `onToggle`. */
  function Root(h: SingleState.Hook, p: SingleState.Props): ItemContext.RootContext {
    ItemContext.RootContext(AsRootValue(SingleState.Value(h, p)), true)
  }

  predicate Expanded(items: seq<string>, p: SingleState.Props, h: SingleState.Hook, i: nat)
    requires i < |items|
  {
    ItemContext.IsOpenExact(AsRootValue(SingleState.Value(h, p)), items[i])
  }

  /** The indices of the items that report expanded. */
  function ExpandedSet(items: seq<string>, p: SingleState.Props, h: SingleState.Hook): set<nat> {
    set i: nat | i < |items| && Expanded(items, p, h, i)
  }

  /** The first render, with the focused header given. */
  function Start(p: SingleState.Props, focus: nat): Session {
    Session(SingleState.Mount(p), focus)
  }

  /** One key press on the focused header: the key table decides between toggling the
      focused item (through its context's `onToggle`) and moving focus. */
  function PressKey(items: seq<string>, p: SingleState.Props, s: Session, key: Key): (t: Session)
    requires s.focus < |items|
    ensures t.focus < |items|
    ensures t.hook.controlled == s.hook.controlled
  {
    var ctx := ItemContext.Provide(Root(s.hook, p), "", items[s.focus]);
    var r := HeaderKeys.ButtonKeyDown(key, true);
    var hook := if r.toggles && ctx.toggles.Some?
                then SingleState.Toggle(s.hook, p, ctx.toggles.value).hook
                else s.hook;
    Session(hook, RovingFocus.Target(|items|, s.focus, r.move))
  }

  /** A click on header `index`: its item's context `onToggle` toggles that item. A
      click outside the headers changes nothing. */
  function ClickHeader(items: seq<string>, p: SingleState.Props, s: Session, index: nat): (t: Session)
    ensures t.focus == s.focus
    ensures t.hook.controlled == s.hook.controlled
  {
    if index >= |items| then s
    else
      var ctx := ItemContext.Provide(Root(s.hook, p), "", items[index]);
      if ctx.toggles.Some? then Session(SingleState.Toggle(s.hook, p, ctx.toggles.value).hook, s.focus)
      else s
  }

  function Handle(items: seq<string>, p: SingleState.Props, s: Session, e: Event): (t: Session)
    requires s.focus < |items|
    ensures t.focus < |items|
  {
    match e
    case Press(key) => PressKey(items, p, s, key)
    case Click(index) => ClickHeader(items, p, s, index)
  }

  /** Events applied in order. */
  function Apply(items: seq<string>, p: SingleState.Props, s: Session, events: seq<Event>): (t: Session)
    requires s.focus < |items|
    ensures t.focus < |items|
    decreases |events|
  {
    if |events| == 0 then s else Apply(items, p, Handle(items, p, s, events[0]), events[1..])
  }

  /** No item id occurs inside another one (true of "one", "two", "three"). Under
      this condition the substring test of `Provide` and exact membership agree. */
  predicate NoNesting(items: seq<string>) {
    forall j, k :: 0 <= j < |items| && 0 <= k < |items| && j != k ==> !JsText.Includes(items[j], items[k])
  }

  /** The indices of the items whose provided context reports expanded, as the
      program computes it. */
  function ProvidedExpandedSet(items: seq<string>, p: SingleState.Props, h: SingleState.Hook): set<nat> {
    set i: nat | i < |items| && ItemContext.Provide(Root(h, p), "", items[i]).isExpanded
  }

  // ---------------------------------------------------------------------------
  // Properties

  /** Activation never moves focus; navigation never changes any item's expanded
      state; other keys change nothing. */
  lemma ActivationNavigationPartition(items: seq<string>, p: SingleState.Props, s: Session, key: Key)
    requires s.focus < |items|
    ensures HeaderKeys.IntentOf(key) == HeaderKeys.Activate ==> PressKey(items, p, s, key).focus == s.focus
    ensures HeaderKeys.IntentOf(key).Navigate? ==> PressKey(items, p, s, key).hook == s.hook
    ensures HeaderKeys.IntentOf(key) == HeaderKeys.Ignore ==> PressKey(items, p, s, key) == s
  {
  }

  /** Activating the focused header toggles exactly that item. */
  lemma ActivationTogglesFocusedItem(items: seq<string>, p: SingleState.Props, s: Session, key: Key)
    requires s.focus < |items| && HeaderKeys.IntentOf(key) == HeaderKeys.Activate
    ensures PressKey(items, p, s, key).hook == SingleState.Toggle(s.hook, p, items[s.focus]).hook
  {
  }

  /** A click on a header toggles exactly that header's item and leaves focus. */
  lemma ClickTogglesItem(items: seq<string>, p: SingleState.Props, s: Session, i: nat)
    requires i < |items|
    ensures ClickHeader(items, p, s, i) == Session(SingleState.Toggle(s.hook, p, items[i]).hook, s.focus)
  {
  }

  /** A valid session stays valid under any key press. */
  lemma PressKeyKeepsValid(items: seq<string>, p: SingleState.Props, s: Session, key: Key)
    requires Valid(items, s)
    ensures Valid(items, PressKey(items, p, s, key))
    ensures !p.allowZeroCollapse && s.hook.store != "" ==> PressKey(items, p, s, key).hook.store != ""
  {
    var t := PressKey(items, p, s, key);
    if t.hook != s.hook {
      assert t.hook == SingleState.Toggle(s.hook, p, items[s.focus]).hook;
      assert items[s.focus] in items;
    }
  }

  /** A valid session stays valid under any event. */
  lemma HandleKeepsValid(items: seq<string>, p: SingleState.Props, s: Session, e: Event)
    requires Valid(items, s)
    ensures Valid(items, Handle(items, p, s, e))
    ensures !p.allowZeroCollapse && s.hook.store != "" ==> Handle(items, p, s, e).hook.store != ""
  {
    if e.Press? {
      PressKeyKeepsValid(items, p, s, e.key);
    } else if e.index < |items| {
      assert items[e.index] in items;
    }
  }

  /** When no item id occurs inside another, the program's `includes` reading of
      `isExpanded` agrees with exact membership for every item. */
  lemma ProvidedMatchesExact(items: seq<string>, p: SingleState.Props, s: Session, i: nat)
    requires Valid(items, s) && NoNesting(items) && i < |items|
    ensures ItemContext.Provide(Root(s.hook, p), "", items[i]).isExpanded == Expanded(items, p, s.hook, i)
  {
    var st := s.hook.store;
    if st == "" {
      JsText.LongerNotIncluded(st, items[i]);
    } else if st == items[i] {
      JsText.IncludesSelf(st);
    } else {
      var j :| 0 <= j < |items| && items[j] == st;
      assert j != i;
    }
  }

  /** Under `NoNesting`, the program's expanded set is the exact one. */
  lemma ProvidedSetIsExact(items: seq<string>, p: SingleState.Props, s: Session)
    requires Valid(items, s) && NoNesting(items)
    ensures ProvidedExpandedSet(items, p, s.hook) == ExpandedSet(items, p, s.hook)
  {
    forall i: nat | i < |items|
      ensures ItemContext.Provide(Root(s.hook, p), "", items[i]).isExpanded == Expanded(items, p, s.hook, i)
    {
      ProvidedMatchesExact(items, p, s, i);
    }
  }

  /** At most one item reports expanded; exactly one once the selection is an item. */
  lemma {:induction false} Exclusive(items: seq<string>, p: SingleState.Props, s: Session)
    requires Valid(items, s)
    ensures |ExpandedSet(items, p, s.hook)| <= 1
    ensures s.hook.store != "" ==> |ExpandedSet(items, p, s.hook)| == 1
  {
    var e := ExpandedSet(items, p, s.hook);
    if s.hook.store == "" {
      assert e == {};
    } else {
      var j :| 0 <= j < |items| && items[j] == s.hook.store;
      assert e == {j} by {
        forall i | i in e
          ensures i == j
        {
          assert items[i] == s.hook.store;
        }
      }
    }
  }

  /** Without zero-collapse, once an item is open exactly one item stays expanded
      through every sequence of key presses and clicks, by exact membership; when no
      item id occurs inside another, also as the program's item contexts report it. */
  lemma {:induction false} ExclusiveForever(items: seq<string>, p: SingleState.Props, s: Session, events: seq<Event>)
    requires Valid(items, s) && !p.allowZeroCollapse && s.hook.store != ""
    ensures Valid(items, Apply(items, p, s, events))
    ensures |ExpandedSet(items, p, Apply(items, p, s, events).hook)| == 1
    ensures NoNesting(items) ==> |ProvidedExpandedSet(items, p, Apply(items, p, s, events).hook)| == 1
    decreases |events|
  {
    if |events| == 0 {
      Exclusive(items, p, s);
      if NoNesting(items) {
        ProvidedSetIsExact(items, p, s);
      }
    } else {
      HandleKeepsValid(items, p, s, events[0]);
      ExclusiveForever(items, p, Handle(items, p, s, events[0]), events[1..]);
    }
  }

  /** The three items of the accordion tests do not nest. */
  lemma TestItemsDoNotNest()
    ensures NoNesting(["one", "two", "three"])
  {
    JsText.LongerNotIncluded("one", "three");
    JsText.LongerNotIncluded("two", "three");
    JsText.LongerNotIncluded("ne", "one");
    JsText.LongerNotIncluded("wo", "two");
    JsText.LongerNotIncluded("ne", "two");
    JsText.LongerNotIncluded("wo", "one");
    JsText.LongerNotIncluded("ee", "one");
    JsText.LongerNotIncluded("ee", "two");
    assert "one"[1..] == "ne" && "two"[1..] == "wo" && "three"[1..] == "hree";
    assert "hree"[1..] == "ree" && "ree"[1..] == "ee";
    assert !JsText.Includes("one", "two") by { assert "one"[0] != "two"[0]; }
    assert !JsText.Includes("two", "one") by { assert "two"[0] != "one"[0]; }
    assert !JsText.Includes("three", "one") by {
      assert "three"[0] != "one"[0] && "hree"[0] != "one"[0] && "ree"[0] != "one"[0];
    }
    assert !JsText.Includes("three", "two") by {
      assert "three"[1] != "two"[1] && "hree"[0] != "two"[0] && "ree"[0] != "two"[0];
    }
  }

  /** With zero-collapse, clicking a header of a freshly mounted accordion opens its
      item, and clicking it again closes it. */
  lemma ClickTwiceScenario(p: SingleState.Props)
    requires p.value == None && p.preExpand == None && p.allowZeroCollapse
    ensures var items := ["one", "two", "three"];
      var once := ClickHeader(items, p, Start(p, 0), 0);
      ExpandedSet(items, p, once.hook) == {0}
      && ExpandedSet(items, p, ClickHeader(items, p, once, 0).hook) == {}
  {
    var items := ["one", "two", "three"];
    var once := ClickHeader(items, p, Start(p, 0), 0);
    assert once.hook.store == "one";
    assert Expanded(items, p, once.hook, 0);
    forall i | i in ExpandedSet(items, p, once.hook)
      ensures i == 0
    {
    }
    var twice := ClickHeader(items, p, once, 0);
    assert twice.hook.store == "";
    forall i | i in ExpandedSet(items, p, twice.hook)
      ensures false
    {
    }
  }

  /** Three items, `preExpand` "two": only the second is expanded at mount. */
  lemma PreExpandScenario(p: SingleState.Props)
    requires p.value == None && p.preExpand == Some("two")
    ensures ExpandedSet(["one", "two", "three"], p, Start(p, 0).hook) == {1}
  {
    var items := ["one", "two", "three"];
    var h := Start(p, 0).hook;
    assert h.store == "two";
    assert Expanded(items, p, h, 1);
    forall i | i in ExpandedSet(items, p, h)
      ensures i == 1
    {
    }
  }

  /** Down on the last of three headers focuses the first; Up on the first focuses the
      last. */
  lemma WrapScenario(p: SingleState.Props, h: SingleState.Hook)
    ensures PressKey(["one", "two", "three"], p, Session(h, 2), ArrowDown).focus == 0
    ensures PressKey(["one", "two", "three"], p, Session(h, 0), ArrowUp).focus == 2
  {
  }
}

=== FILE: dialog.dfy ===
/** The dialog: its context (`Dialog`, `useDialogContext`) and the content's
    behaviour (`DialogContent`): open gating, initial focus, the Escape/Tab focus trap
    and the click-outside close. The content element is the tree of `Focusable`; it is
    None while the content ref is still empty. Focus is identified by element key. */
module Dialog {
  import opened Wrappers
  import opened Keys
  import opened Focusable

  /** The identity of the caller's `onClose` callback. */
  type Handler = nat

  datatype DialogProps = DialogProps(open: bool, onClose: Handler)

  /** The context the dialog provides to its parts. */
  datatype DialogContext = DialogContext(open: bool, onClose: Handler)

  const MissingDialogMessage: string :=
    "Dialog components are compound component. Must be used inside Dialog."

  /** `Dialog`: the context is made of the props' `open` and `onClose`. */
  function Provide(p: DialogProps): (c: DialogContext)
    ensures c.open == p.open && c.onClose == p.onClose
  {
    DialogContext(p.open, p.onClose)
  }

  /** `useDialogContext`: the context, or the compound-component error. */
  function UseDialogContext(c: Option<DialogContext>): (r: Result<DialogContext, string>)
    ensures r.Success? <==> c.Some?
    ensures r.Success? ==> r.value == c.value
    ensures r.Failure? ==> r.error == MissingDialogMessage
  {
    match c
    case None => Failure(MissingDialogMessage)
    case Some(ctx) => Success(ctx)
  }

  /** The attributes of the rendered content element. */
  datatype ContentAttrs = ContentAttrs(role: string, ariaModal: string, hidden: bool, dataState: string)

  /** `DialogContent`'s render: nothing unless open. */
  function ContentView(c: DialogContext): (r: Option<ContentAttrs>)
    ensures r.Some? <==> c.open
    ensures r.Some? ==> !r.value.hidden && r.value.dataState == "open"
    ensures r.Some? ==> r.value.role == "dialog" && r.value.ariaModal == "true"
  {
    if !c.open then None
    else Some(ContentAttrs("dialog", "true", !c.open, if c.open then "open" else "closed"))
  }

  /** The mount effect: focus the first focusable element, if the content exists and
      has one. */
  function InitialFocus(content: Option<Element>): (r: Option<Element>)
    ensures r.Some? <==> content.Some? && |Collected(content.value)| > 0
    ensures r.Some? ==> r.value == Collected(content.value)[0]
  {
    if content.None? then None
    else
      var elements := FirstLast(Collected(content.value));
      if |elements| == 0 then None else Some(elements[0])
  }

  /** The initial-focus effect as it runs: once, after the first render (its
      dependency list is empty). The content ref is set only if that render produced
      the content, that is, only if the dialog was open at mount. */
  function MountFocus(c: DialogContext, tree: Element): (r: Option<Element>)
    ensures !c.open ==> r == None
    ensures c.open ==> (r.Some? <==> |Collected(tree)| > 0)
    ensures r.Some? ==> r.value == Collected(tree)[0]
  {
    InitialFocus(if ContentView(c).Some? then Some(tree) else None)
  }

  /** What a key press on the content does. */
  datatype KeyEffect = KeyEffect(closes: bool, preventDefault: bool, focus: Option<Element>)

  const Nothing: KeyEffect := KeyEffect(false, false, None)

  /** `handleKeydown`. `active` is `document.activeElement` (None for null). When no
      element is focusable the first and last elements are `undefined`, which no
      active element is identical to. */
  function HandleKeydown(key: Key, shift: bool, content: Option<Element>, active: Option<nat>): (r: KeyEffect)
    ensures key == Escape ==> r == KeyEffect(true, false, None)
    ensures r.closes ==> key == Escape
    ensures r.preventDefault <==> r.focus.Some?
    ensures r.focus.Some? ==> key == Tab && content.Some? && r.focus.value in Collected(content.value)
    ensures key != Escape && key != Tab ==> r == Nothing
    ensures key != Escape && content.None? ==> r == Nothing
  {
    if key == Escape then KeyEffect(true, false, None)
    else if content.None? then Nothing
    else
      var fl := FirstLast(Collected(content.value));
      if key == Tab && |fl| == 2 then
        if shift then
          if active == Some(fl[0].key) then KeyEffect(false, true, Some(fl[1])) else Nothing
        else
          if active == Some(fl[1].key) then KeyEffect(false, true, Some(fl[0])) else Nothing
      else Nothing
  }

  /** Node.contains: the element itself or one of its descendants has this key. */
  predicate Contains(root: Element, key: nat) {
    root.key == key || exists x :: x in PreOrder(root.children) && x.key == key
  }

  /** The document click listener: close when the content exists and the click
      target lies outside it. */
  function ClickOutside(content: Option<Element>, target: nat): (closes: bool)
    ensures closes <==>
      (content.Some? && target != content.value.key
       && forall x :: x in PreOrder(content.value.children) ==> x.key != target)
    ensures content.Some? && target == content.value.key ==> !closes
  {
    content.Some? && !Contains(content.value, target)
  }

  // ---------------------------------------------------------------------------
  // Properties

  /** Shift+Tab on the first focusable element wraps to the last one. */
  lemma ShiftTabWrapsToLast(content: Element)
    requires |Collected(content)| > 0
    ensures var nodes := Collected(content);
      HandleKeydown(Tab, true, Some(content), Some(nodes[0].key)) == KeyEffect(false, true, Some(nodes[|nodes| - 1]))
  {
  }

  /** Tab on the last focusable element wraps to the first one. */
  lemma TabWrapsToFirst(content: Element)
    requires |Collected(content)| > 0
    ensures var nodes := Collected(content);
      HandleKeydown(Tab, false, Some(content), Some(nodes[|nodes| - 1].key)) == KeyEffect(false, true, Some(nodes[0]))
  {
  }

  /** Tab anywhere but on the last element, and Shift+Tab anywhere but on the first,
      are left to the browser. */
  lemma TabElsewhereDoesNothing(content: Element, shift: bool, active: Option<nat>)
    requires |Collected(content)| > 0
    requires shift ==> active != Some(Collected(content)[0].key)
    requires !shift ==> active != Some(Collected(content)[|Collected(content)| - 1].key)
    ensures HandleKeydown(Tab, shift, Some(content), active) == Nothing
  {
  }

  /** With one focusable element, Tab and Shift+Tab both keep focus on it. */
  lemma SingleElementTrapsFocus(content: Element, shift: bool)
    requires |Collected(content)| == 1
    ensures var only := Collected(content)[0];
      HandleKeydown(Tab, shift, Some(content), Some(only.key)).focus == Some(only)
  {
  }

  /** Nothing focusable: Tab does nothing. */
  lemma NoFocusableNoTrap(content: Element, shift: bool, active: Option<nat>)
    requires |Collected(content)| == 0
    ensures HandleKeydown(Tab, shift, Some(content), active) == Nothing
  {
  }

  /** The content is rendered exactly when the `open` prop given to `Dialog` holds. */
  lemma RenderedIffOpenProp(p: DialogProps)
    ensures ContentView(Provide(p)).Some? <==> p.open
  {
  }

  /** A content first rendered closed focuses nothing, even when the dialog is opened
      later: the effect has already had its only run. */
  lemma ClosedAtMountNeverFocuses(p: DialogProps, tree: Element)
    requires !p.open
    ensures MountFocus(Provide(p), tree) == None
  {
  }

  /** Clicking any element inside the content never closes the dialog. */
  lemma ClickInsideKeepsOpen(content: Element, x: Element)
    requires x in PreOrder(content.children)
    ensures !ClickOutside(Some(content), x.key)
  {
  }
}

=== FILE: focusable.dfy ===
/** The dialog's focusable-descendant helpers `getFocusableChildElement` and
    `getFirstLastFocusableElement`. The DOM below the dialog content is an element
    tree; node identity (`===`) is the element's `key`. */
module Focusable {

  /** An element with the three properties the filter reads and its child elements
      in document order. `disabled` is false for elements that have no such property. */
  datatype Element = Element(key: nat, hidden: bool, disabled: bool, tabIndex: int, children: seq<Element>)

  /** The tree walker's filter: FILTER_ACCEPT when this holds, FILTER_SKIP otherwise. */
  predicate Accepted(e: Element) {
    !e.hidden && !e.disabled && e.tabIndex >= 0
  }

  /** The elements of a forest in document (pre-order) order. */
  function PreOrder(es: seq<Element>): seq<Element>
    decreases es
  {
    if |es| == 0 then [] else [es[0]] + PreOrder(es[0].children) + PreOrder(es[1..])
  }

  /** The accepted elements of `s`, in their order in `s`. */
  function Filter(s: seq<Element>): (r: seq<Element>)
    ensures |r| <= |s|
    ensures forall x :: x in r <==> x in s && Accepted(x)
  {
    if |s| == 0 then [] else (if Accepted(s[0]) then [s[0]] else []) + Filter(s[1..])
  }

  /** What `getFocusableChildElement(root)` returns: every accepted proper descendant
      of `root`, in document order. The root itself is where the walk starts and is
      never returned by `nextNode`. */
  function Collected(root: Element): seq<Element> {
    Filter(PreOrder(root.children))
  }

  lemma {:induction false} PreOrderAppend(a: seq<Element>, b: seq<Element>)
    ensures PreOrder(a + b) == PreOrder(a) + PreOrder(b)
    decreases a
  {
    if |a| > 0 {
      assert (a + b)[0] == a[0];
      assert (a + b)[1..] == a[1..] + b;
      PreOrderAppend(a[1..], b);
    } else {
      assert a + b == b;
    }
  }

  lemma {:induction false} FilterAppend(a: seq<Element>, b: seq<Element>)
    ensures Filter(a + b) == Filter(a) + Filter(b)
  {
    if |a| > 0 {
      assert (a + b)[0] == a[0];
      assert (a + b)[1..] == a[1..] + b;
      FilterAppend(a[1..], b);
    } else {
      assert a + b == b;
    }
  }

  /** One step of the walk: visiting the first pending element decides that element
      and replaces it by its children. */
  lemma WalkStep(pending: seq<Element>)
    requires |pending| > 0
    ensures Accepted(pending[0]) ==>
      Filter(PreOrder(pending)) == [pending[0]] + Filter(PreOrder(pending[0].children + pending[1..]))
    ensures !Accepted(pending[0]) ==>
      Filter(PreOrder(pending)) == Filter(PreOrder(pending[0].children + pending[1..]))
    ensures |PreOrder(pending[0].children + pending[1..])| < |PreOrder(pending)|
  {
    var e := pending[0];
    PreOrderAppend(e.children, pending[1..]);
    assert PreOrder(pending) == [e] + PreOrder(e.children + pending[1..]);
    FilterAppend([e], PreOrder(e.children + pending[1..]));
  }

  /** `getFocusableChildElement`: a tree walker over `root`'s descendants. `pending`
      holds the subtrees still to visit, nearest first; visiting an element pushes its
      children in front of the rest, so a skipped element's subtree is still walked. */
  method CollectFocusable(root: Element) returns (nodes: seq<Element>)
    ensures nodes == Collected(root)
  {
    nodes := [];
    var pending := root.children;
    while |pending| > 0
      invariant nodes + Filter(PreOrder(pending)) == Collected(root)
      decreases |PreOrder(pending)|
    {
      var e := pending[0];
      WalkStep(pending);
      if Accepted(e) {
        nodes := nodes + [e];
      }
      pending := e.children + pending[1..];
    }
  }

  /** `getFirstLastFocusableElement`: nothing when no element is focusable, otherwise
      the first and the last focusable element (the same one when there is one). */
  function FirstLast(nodes: seq<Element>): (r: seq<Element>)
    ensures |nodes| == 0 <==> r == []
    ensures |nodes| > 0 ==> |r| == 2 && r[0] == nodes[0] && r[1] == nodes[|nodes| - 1]
  {
    if |nodes| == 0 then [] else [nodes[0], nodes[|nodes| - 1]]
  }

  // ---------------------------------------------------------------------------
  // Properties

  /** An element is collected exactly when it is a proper descendant of `root` that is
      not hidden, not disabled and has a non-negative `tabIndex`. */
  lemma CollectedIff(root: Element, x: Element)
    ensures x in Collected(root) <==> x in PreOrder(root.children) && !x.hidden && !x.disabled && x.tabIndex >= 0
  {
  }

  /** The subtree of any element of a forest is part of the forest's walk. */
  lemma {:induction false} SubtreeInWalk(es: seq<Element>, c: Element, x: Element)
    requires c in PreOrder(es) && x in PreOrder(c.children)
    ensures x in PreOrder(es)
    decreases es
  {
    var rest := PreOrder(es[0].children) + PreOrder(es[1..]);
    if c == es[0] {
      assert x in rest;
    } else if c in PreOrder(es[0].children) {
      SubtreeInWalk(es[0].children, c, x);
      assert x in rest;
    } else {
      SubtreeInWalk(es[1..], c, x);
      assert x in rest;
    }
  }

  /** A skipped element does not hide its subtree: an accepted element below any
      descendant of `root`, accepted or not, is collected. */
  lemma SkipDoesNotPrune(root: Element, c: Element, x: Element)
    requires c in PreOrder(root.children) && !Accepted(c)
    requires x in PreOrder(c.children) && Accepted(x)
    ensures x in Collected(root) && c !in Collected(root)
  {
    SubtreeInWalk(root.children, c, x);
  }

  /** An element of a forest's walk has a subtree no larger than the whole walk. */
  lemma {:induction false} WalkBound(es: seq<Element>, x: Element)
    requires x in PreOrder(es)
    ensures |PreOrder(x.children)| < |PreOrder(es)|
    decreases es
  {
    if x != es[0] {
      if x in PreOrder(es[0].children) {
        WalkBound(es[0].children, x);
      } else {
        WalkBound(es[1..], x);
      }
    }
  }

  /** The root is never among its own focusable children. */
  lemma RootNotCollected(root: Element)
    ensures root !in Collected(root)
  {
    if root in PreOrder(root.children) {
      WalkBound(root.children, root);
    }
  }

  /** No two elements of `s` share a key. */
  predicate DistinctKeys(s: seq<Element>) {
    forall i, j :: 0 <= i < j < |s| ==> s[i].key != s[j].key
  }

  /** Filtering keeps keys distinct. */
  lemma {:induction false} FilterDistinct(s: seq<Element>)
    requires DistinctKeys(s)
    ensures DistinctKeys(Filter(s))
  {
    if |s| > 0 {
      assert DistinctKeys(s[1..]);
      FilterDistinct(s[1..]);
      var f := Filter(s[1..]);
      forall k | 0 <= k < |f|
        ensures f[k].key != s[0].key
      {
        assert f[k] in s[1..];
        var m :| 0 <= m < |s[1..]| && s[1..][m] == f[k];
        assert s[m + 1] == f[k];
      }
    }
  }

  /** In a document whose elements have distinct identities, each focusable element
      is collected once. */
  lemma CollectedOnce(root: Element)
    requires DistinctKeys(PreOrder(root.children))
    ensures DistinctKeys(Collected(root))
  {
    FilterDistinct(PreOrder(root.children));
  }
}

=== FILE: header_keys.dfy ===
/** The header control of an accordion item, in its two copies: `AccordionButton`
    (the package) and `AccordionHeader` (the older application copy). Each binds the
    item's ids and expanded flag to ARIA attributes and classifies a key press into a
    toggle or a focus move, with or without `preventDefault`. */
module HeaderKeys {
  import opened Wrappers
  import opened Keys
  import ItemContext

  /** A focus move requested from the sibling-focus helpers. */
  datatype Move = Stay | ToNext | ToPrevious | ToFirst | ToLast

  /** What one key press does. */
  datatype KeyResponse = KeyResponse(preventDefault: bool, toggles: bool, move: Move)

  /** The ARIA attributes of the rendered button; an absent flag is not rendered. */
  datatype ButtonAttrs = ButtonAttrs(
    id: string,
    ariaControls: string,
    ariaExpanded: Option<bool>,
    ariaDisabled: Option<bool>)

  /** What a key asks of the header control. */
  datatype Intent = Activate | Navigate(to: Move) | Ignore

  /** The keys the header control reacts to: Space and Enter activate, the arrows
      and Home/End move focus, everything else is ignored. */
  function IntentOf(key: Key): Intent {
    match key
    case Space => Activate
    case Enter => Activate
    case ArrowDown => Navigate(ToNext)
    case ArrowUp => Navigate(ToPrevious)
    case Home => Navigate(ToFirst)
    case End => Navigate(ToLast)
    case _ => Ignore
  }

  /** `navigateFocus` of `AccordionButton`. `canToggle` says whether the item context
      supplied an `onToggle`. */
  function ButtonKeyDown(key: Key, canToggle: bool): (r: KeyResponse)
    ensures r.toggles ==> r.move == Stay
    ensures r.move != Stay ==> !r.toggles
    ensures r.toggles <==> canToggle && IntentOf(key) == Activate
    ensures r.move != Stay <==> IntentOf(key).Navigate?
    ensures IntentOf(key).Navigate? ==> r.move == IntentOf(key).to
    ensures r.preventDefault <==> IntentOf(key) != Ignore && key != End
  {
    match key
    case Space => KeyResponse(true, canToggle, Stay)
    case Enter => KeyResponse(true, canToggle, Stay)
    case ArrowDown => KeyResponse(true, false, ToNext)
    case ArrowUp => KeyResponse(true, false, ToPrevious)
    case Home => KeyResponse(true, false, ToFirst)
    case End => KeyResponse(false, false, ToLast)
    case _ => KeyResponse(false, false, Stay)
  }

  /** `navigateFocus` of the older `AccordionHeader`. */
  function HeaderKeyDown(key: Key, canToggle: bool): (r: KeyResponse)
    ensures r.toggles ==> r.move == Stay
    ensures r.move != Stay ==> !r.toggles
    ensures key == End ==> r == KeyResponse(false, false, ToLast)
    ensures IntentOf(key) == Ignore ==> r == KeyResponse(false, false, Stay)
  {
    match key
    case Space => KeyResponse(true, canToggle, Stay)
    case Enter => KeyResponse(true, canToggle, Stay)
    case ArrowDown => KeyResponse(true, false, ToNext)
    case ArrowUp => KeyResponse(true, false, ToPrevious)
    case Home => KeyResponse(true, false, ToFirst)
    case End => KeyResponse(false, false, ToLast)
    case _ => KeyResponse(false, false, Stay)
  }

  /** The two copies classify every key the same way. */
  lemma HeaderMatchesButton(key: Key, canToggle: bool)
    ensures HeaderKeyDown(key, canToggle) == ButtonKeyDown(key, canToggle)
  {
  }

  /** End is the one navigation key that leaves the browser's default action alone. */
  lemma EndIsTheOnlyUnsuppressedMove(key: Key, canToggle: bool)
    ensures ButtonKeyDown(key, canToggle).move != Stay && !ButtonKeyDown(key, canToggle).preventDefault
        <==> key == End
  {
  }

  /** `AccordionButton`'s attributes. It reads a context field `open` that the item
      context type does not declare; `open` is whatever the context carries under that
      name (None when absent, as with `ItemContext.Provide`). */
  function ButtonAttributes(ctx: ItemContext.ItemCtx, open: Option<bool>): (a: ButtonAttrs)
    ensures a.id == ctx.headerId && a.ariaControls == ctx.contentId
    ensures a.ariaExpanded == a.ariaDisabled == open
  {
    ButtonAttrs(ctx.headerId, ctx.contentId, open, open)
  }

  /** `AccordionHeader`'s attributes, bound to the context's `isExpanded`. */
  function HeaderAttributes(ctx: ItemContext.ItemCtx): (a: ButtonAttrs)
    ensures a.id == ctx.headerId && a.ariaControls == ctx.contentId
    ensures a.ariaExpanded == a.ariaDisabled == Some(ctx.isExpanded)
  {
    ButtonAttrs(ctx.headerId, ctx.contentId, Some(ctx.isExpanded), Some(ctx.isExpanded))
  }

  /** The two readings of the button's `open`: with the context as declared the
      expanded state is never rendered, and only a context that carried `open` equal to
      `isExpanded` would give the older header's attributes. */
  lemma ButtonOpenReadings(ctx: ItemContext.ItemCtx)
    ensures ButtonAttributes(ctx, None).ariaExpanded == None
    ensures ButtonAttributes(ctx, None) != HeaderAttributes(ctx)
    ensures ButtonAttributes(ctx, Some(ctx.isExpanded)) == HeaderAttributes(ctx)
  {
  }
}

=== FILE: item_context.dfy ===
/** `AccordionItemProvider` and `useAccordionItemContext`: per-item values derived from
    the root's selection value, a generated id and the item's own id. */
module ItemContext {
  import opened Wrappers
  import JsText

  /** The root's selection value as an item sees it: absent, the single variant's
      string, or the multiple variant's list of open ids. */
  datatype RootValue = Absent | Text(s: string) | List(ids: seq<string>)

  /** What an item reads from the root context: the selection value and whether the
      root supplies an `onToggle`. */
  datatype RootContext = RootContext(value: RootValue, hasOnToggle: bool)

  /** The per-item context. `toggles` is what calling its `onToggle` does: call the
      root's `onToggle` with that id, or nothing. */
  datatype ItemCtx = ItemCtx(
    itemId: string,
    headerId: string,
    contentId: string,
    isExpanded: bool,
    toggles: Option<string>)

  const ProviderMissingMessage: string := "Must be used inside AccordionItemContext Provider."

  function HeaderId(generated: string): string { "header-" + generated }

  function ContentId(generated: string): string { "content-" + generated }

  /** `!!value?.includes(itemId)`: an absent value includes nothing, a list includes
      its members, and a string includes every substring of itself. */
  predicate Includes(v: RootValue, itemId: string) {
    match v
    case Absent => false
    case Text(s) => JsText.Includes(s, itemId)
    case List(ids) => itemId in ids
  }

  /** The provider's memoised context for one item. */
  function Provide(root: RootContext, generated: string, itemId: string): (c: ItemCtx)
    ensures c.itemId == itemId
    ensures c.headerId == "header-" + generated && c.contentId == "content-" + generated
    ensures c.headerId != c.contentId
    ensures root.value.Absent? ==> !c.isExpanded
    ensures root.value.List? ==> (c.isExpanded <==> itemId in root.value.ids)
    ensures root.value.Text? ==>
      (c.isExpanded <==> exists k :: JsText.OccursAt(root.value.s, itemId, k))
    ensures c.toggles.Some? <==> root.hasOnToggle
    ensures c.toggles.Some? ==> c.toggles.value == itemId
  {
    JsText.IncludesIff(if root.value.Text? then root.value.s else "", itemId);
    assert HeaderId(generated)[0] != ContentId(generated)[0];
    ItemCtx(itemId, HeaderId(generated), ContentId(generated), Includes(root.value, itemId),
            if root.hasOnToggle then Some(itemId) else None)
  }

  /** `useAccordionItemContext`: the context, or the provider-missing error. */
  function UseItemContext(c: Option<ItemCtx>): (r: Result<ItemCtx, string>)
    ensures r.Success? <==> c.Some?
    ensures r.Success? ==> r.value == c.value
    ensures r.Failure? ==> r.error == ProviderMissingMessage
  {
    match c
    case None => Failure(ProviderMissingMessage)
    case Some(ctx) => Success(ctx)
  }

  /** Ids generated for different items never collide: equal header ids (or equal
      content ids) come from the same generated suffix, and no header id equals any
      content id. */
  lemma GeneratedIdsDistinct(g1: string, g2: string)
    ensures HeaderId(g1) == HeaderId(g2) ==> g1 == g2
    ensures ContentId(g1) == ContentId(g2) ==> g1 == g2
    ensures HeaderId(g1) != ContentId(g2)
  {
    assert HeaderId(g1)[0] != ContentId(g2)[0];
    if HeaderId(g1) == HeaderId(g2) {
      assert g1 == HeaderId(g1)[7..] && g2 == HeaderId(g2)[7..];
    }
    if ContentId(g1) == ContentId(g2) {
      assert g1 == ContentId(g1)[8..] && g2 == ContentId(g2)[8..];
    }
  }

  // ---------------------------------------------------------------------------
  // Single-mode membership

  /** Exact membership, the intended reading of "this item is the open one" for the
      single variant's string value. */
  predicate IsOpenExact(v: RootValue, itemId: string) {
    match v
    case Absent => false
    case Text(s) => s == itemId
    case List(ids) => itemId in ids
  }

  /** With the single variant's string value, the substring test marks an item "on"
      expanded while item "one" is the open one: two items report expanded. */
  lemma SubstringMarksTwoItemsOpen()
    ensures Includes(Text("one"), "on") && Includes(Text("one"), "one")
    ensures !IsOpenExact(Text("one"), "on")
  {
    assert "on" <= "one";
  }

  /** Exact membership gives the single variant at most one expanded item, agrees with
      `Includes` on absent and list values, and never reports an item the substring
      test would not. */
  lemma ExactIsExclusive(v: RootValue, a: string, b: string)
    ensures v.Text? && IsOpenExact(v, a) && IsOpenExact(v, b) ==> a == b
    ensures !v.Text? ==> (IsOpenExact(v, a) <==> Includes(v, a))
    ensures IsOpenExact(v, a) ==> Includes(v, a)
  {
    if v.Text? && IsOpenExact(v, a) {
      assert a <= v.s;
    }
  }
}

=== FILE: js_text.dfy ===
/** The two string operations of JavaScript that the components rely on:
    `String.prototype.trim` and `String.prototype.includes`. */
module JsText {

  /** The code points `trim` removes: the WhiteSpace and LineTerminator
      characters of ECMAScript (section 12.2 and 12.3 of ECMA-262). */
  predicate IsTrimmable(c: char) {
    var n := c as int;
    || n == 0x09 || n == 0x0A || n == 0x0B || n == 0x0C || n == 0x0D
    || n == 0x20 || n == 0xA0 || n == 0x1680
    || (0x2000 <= n <= 0x200A)
    || n == 0x2028 || n == 0x2029 || n == 0x202F || n == 0x205F
    || n == 0x3000 || n == 0xFEFF
  }

  /** Every character of `s` is one that `trim` removes (true of ""). */
  predicate AllTrimmable(s: string) {
    forall i :: 0 <= i < |s| ==> IsTrimmable(s[i])
  }

  /** Drops leading trimmable characters: the result is the longest suffix of `s`
      that does not start with one. */
  function TrimStart(s: string): (r: string)
    ensures |r| <= |s| && r == s[|s| - |r|..]
    ensures |r| > 0 ==> !IsTrimmable(r[0])
    ensures forall i :: 0 <= i < |s| - |r| ==> IsTrimmable(s[i])
  {
    if |s| > 0 && IsTrimmable(s[0]) then TrimStart(s[1..]) else s
  }

  /** Drops trailing trimmable characters: the result is the longest prefix of `s`
      that does not end with one. */
  function TrimEnd(s: string): (r: string)
    ensures |r| <= |s| && r == s[..|r|]
    ensures |r| > 0 ==> !IsTrimmable(r[|r| - 1])
    ensures forall i :: |r| <= i < |s| ==> IsTrimmable(s[i])
  {
    if |s| > 0 && IsTrimmable(s[|s| - 1]) then TrimEnd(s[..|s| - 1]) else s
  }

  /** `s.trim()`. */
  function Trim(s: string): string {
    TrimEnd(TrimStart(s))
  }

  /** `s.trim().length > 0` holds exactly when some character of `s` is not
      whitespace. */
  lemma TrimEmptyIff(s: string)
    ensures |Trim(s)| == 0 <==> AllTrimmable(s)
  {
  }

  /** `hay.includes(needle)`: `needle` occurs at some position of `hay`.
      The empty string occurs in every string. */
  predicate Includes(hay: string, needle: string) {
    needle <= hay || (|hay| > 0 && Includes(hay[1..], needle))
  }

  /** A string includes itself. */
  lemma IncludesSelf(s: string)
    ensures Includes(s, s)
  {
  }

  /** A needle longer than the string is never included. */
  lemma {:induction false} LongerNotIncluded(hay: string, needle: string)
    requires |needle| > |hay|
    ensures !Includes(hay, needle)
  {
    if |hay| > 0 {
      LongerNotIncluded(hay[1..], needle);
    }
  }

  /** `needle` occurs in `hay` starting at offset `k`. */
  predicate OccursAt(hay: string, needle: string, k: int) {
    0 <= k <= |hay| - |needle| && needle == hay[k..k + |needle|]
  }

  /** `Includes` finds exactly the occurrences at some offset. */
  lemma {:induction false} IncludesIff(hay: string, needle: string)
    ensures Includes(hay, needle) <==> exists k :: OccursAt(hay, needle, k)
  {
    if needle <= hay {
      assert OccursAt(hay, needle, 0);
    } else if |hay| > 0 {
      IncludesIff(hay[1..], needle);
      if Includes(hay[1..], needle) {
        var k :| OccursAt(hay[1..], needle, k);
        assert hay[1..][k..k + |needle|] == hay[k + 1..k + 1 + |needle|];
        assert OccursAt(hay, needle, k + 1);
      } else {
        forall k | OccursAt(hay, needle, k)
          ensures OccursAt(hay[1..], needle, k - 1)
        {
          assert hay[k..k + |needle|] == hay[1..][k - 1..k - 1 + |needle|];
        }
      }
    }
  }
}

=== FILE: keys.dfy ===
/** The keyboard keys the components react to; every other key is `Other`. */
module Keys {
  datatype Key = Space | Enter | ArrowDown | ArrowUp | Home | End | Escape | Tab | Other
}

=== FILE: roving_focus.dfy ===
/** The sibling-focus helpers `focusNextSibling`, `focusPreviousSibling`,
    `focusFirstSibling` and `focusLastSibling`, as the accordion's tests describe them:
    headers are numbered 0 .. count-1 in document order and moves wrap around. */
module RovingFocus {
  import opened HeaderKeys

  /** The index of the header focused after `m`, starting from header `at`: next and
      previous are the neighbours in circular order (modulo `count`). */
  function Target(count: nat, at: nat, m: Move): (r: nat)
    requires at < count
    ensures r < count
    ensures m == Stay ==> r == at
    ensures m == ToFirst ==> r == 0
    ensures m == ToLast ==> r == count - 1
    ensures m == ToNext ==> r == (at + 1) % count
    ensures m == ToPrevious ==> r == (at + count - 1) % count
  {
    match m
    case Stay => at
    case ToNext => if at == count - 1 then 0 else at + 1
    case ToPrevious => if at == 0 then count - 1 else at - 1
    case ToFirst => 0
    case ToLast => count - 1
  }

  /** Next and previous undo each other. */
  lemma NextPreviousInverse(count: nat, at: nat)
    requires at < count
    ensures Target(count, Target(count, at, ToNext), ToPrevious) == at
    ensures Target(count, Target(count, at, ToPrevious), ToNext) == at
  {
  }

  /** `k` moves to the next header, applied in turn. */
  function Advance(count: nat, at: nat, k: nat): (r: nat)
    requires at < count
    ensures r < count
  {
    if k == 0 then at else Target(count, Advance(count, at, k - 1), ToNext)
  }

  /** Before reaching the last header, moving next `k` times moves `k` places on. */
  lemma {:induction false} AdvanceWithin(count: nat, at: nat, k: nat)
    requires at + k < count
    ensures Advance(count, at, k) == at + k
  {
    if k > 0 {
      AdvanceWithin(count, at, k - 1);
    }
  }

  /** Moving next `j` then `k` times is moving next `j + k` times. */
  lemma {:induction false} AdvanceCompose(count: nat, at: nat, j: nat, k: nat)
    requires at < count
    ensures Advance(count, at, j + k) == Advance(count, Advance(count, at, j), k)
  {
    if k > 0 {
      AdvanceCompose(count, at, j, k - 1);
    }
  }

  /** `count` moves to the next header come back to the start. */
  lemma FullCycle(count: nat, at: nat)
    requires at < count
    ensures Advance(count, at, count) == at
  {
    var toLast := count - 1 - at;
    AdvanceWithin(count, at, toLast);
    AdvanceCompose(count, at, toLast, 1 + at);
    AdvanceCompose(count, count - 1, 1, at);
    AdvanceWithin(count, 0, at);
  }
}

=== FILE: single_state.dfy ===
/** The single-mode selection hook `useSingleAccordionState`: which item id is open,
    who owns that value (the caller or the hook), and what `onToggle(id)` writes.
    React's `useRef`/`useState` become the explicit `Hook` record; the setter and the
    caller's `onToggle` callback become the `Step` the transition returns. */
module SingleState {
  import opened Wrappers
  import JsText

  /** A caller-chosen item identifier; "" means that no item is open. */
  type ItemID = string

  /** The props the hook reads. `value` and `preExpand` may be absent (`undefined`),
      `hasOnToggle` says whether the caller passed an `onToggle` callback, and an
      absent `allowZeroCollapse` reads as false. */
  datatype Props = Props(
    value: Option<ItemID>,
    hasOnToggle: bool,
    preExpand: Option<ItemID>,
    allowZeroCollapse: bool)

  /** What the hook keeps across renders: the ownership flag fixed at mount
      (`isControlled`, a ref) and the internal store (`uncontrolledValue`). */
  datatype Hook = Hook(controlled: bool, store: ItemID)

  /** The result of one toggle: the hook afterwards, and the value handed to the
      caller's `onToggle` callback, if it was called. */
  datatype Step = Step(hook: Hook, notified: Option<ItemID>)

  /** JavaScript truthiness of an optional string: present and non-empty. */
  predicate Truthy(v: Option<string>) {
    v.Some? && v.value != ""
  }

  /** A non-empty value made only of whitespace: the value for which
      `value && value.trim().length > 0` is false although `value` is truthy. */
  predicate Blank(s: string) {
    s != "" && JsText.AllTrimmable(s)
  }

  /** First render: ownership is decided once from `props.value`, and the store is
      seeded from `preExpand` only when the hook owns the value. */
  function Mount(p: Props): (h: Hook)
    ensures h.controlled <==> p.value.Some? && p.value.value != ""
    ensures !h.controlled ==> h.store == p.preExpand.GetOr("")
    ensures h.controlled ==> h.store == ""
  {
    var controlled := Truthy(p.value);
    var seed := if !controlled && Truthy(p.preExpand) then p.preExpand.value else "";
    Hook(controlled, seed)
  }

  /** The value the hook reports: the caller's `value` when controlled (possibly
      absent on a later render), the internal store otherwise. */
  function Value(h: Hook, p: Props): Option<ItemID> {
    if h.controlled then p.value else Some(h.store)
  }

  /** Whether there is anyone to write to: the internal setter when uncontrolled,
      the caller's callback when controlled. */
  predicate HasWriter(h: Hook, p: Props) {
    !h.controlled || p.hasOnToggle
  }

  /** The value `onToggle(id)` writes, given the current value; None when it writes
      nothing. */
  function Decide(value: Option<ItemID>, allowZeroCollapse: bool, id: ItemID): (r: Option<ItemID>)
    ensures r == None <==>
      value.Some? && Blank(value.value) && !(value.value == id && allowZeroCollapse)
    ensures r.Some? ==> r.value == "" || r.value == id
    ensures value == Some(id) && allowZeroCollapse ==> r == Some("")
    ensures r.Some? && r.value != id ==> value == Some(id) && allowZeroCollapse
  {
    JsText.TrimEmptyIff(if value.Some? then value.value else "");
    if value == Some(id) && allowZeroCollapse then Some("")
    else if !Truthy(value) || |JsText.Trim(value.value)| > 0 then Some(id)
    else None
  }

  /** `onToggle(id)`: with no writer nothing happens; an uncontrolled hook writes the
      decided value into its store; a controlled hook hands it to the caller and
      never touches its store. */
  function Toggle(h: Hook, p: Props, id: ItemID): (s: Step)
    ensures s.hook.controlled == h.controlled
    ensures !HasWriter(h, p) ==> s == Step(h, None)
    ensures h.controlled ==> s.hook == h
    ensures h.controlled && p.hasOnToggle ==> s.notified == Decide(p.value, p.allowZeroCollapse, id)
    ensures !h.controlled ==> s.notified == None
    ensures !h.controlled ==> s.hook.store == Decide(Some(h.store), p.allowZeroCollapse, id).GetOr(h.store)
  {
    if !HasWriter(h, p) then Step(h, None)
    else
      match Decide(Value(h, p), p.allowZeroCollapse, id)
      case None => Step(h, None)
      case Some(v) => if h.controlled then Step(h, Some(v)) else Step(Hook(false, v), None)
  }

  /** Toggles applied in order to an uncontrolled hook. */
  function Run(h: Hook, p: Props, ids: seq<ItemID>): Hook
    decreases |ids|
  {
    if |ids| == 0 then h else Run(Toggle(h, p, ids[0]).hook, p, ids[1..])
  }

  /** The single-mode contract the hook implements: toggling the open item closes it
      when zero-collapse is allowed and keeps it otherwise; toggling any other item
      opens that item. */
  function PolicyToggle(open: ItemID, allowZeroCollapse: bool, id: ItemID): ItemID {
    if id == open then (if allowZeroCollapse then "" else open) else id
  }

  // ---------------------------------------------------------------------------
  // Properties

  /** Ownership never changes after mount, whatever is toggled. */
  lemma {:induction false} OwnershipFixed(h: Hook, p: Props, ids: seq<ItemID>)
    ensures Run(h, p, ids).controlled == h.controlled
    decreases |ids|
  {
    if |ids| > 0 {
      OwnershipFixed(Toggle(h, p, ids[0]).hook, p, ids[1..]);
    }
  }

  /** Controlled mode: the reported value is always the caller's, and toggling without
      the caller updating `value` leaves it unchanged however often it is repeated. */
  lemma {:induction false} ControlledIsPure(h: Hook, p: Props, ids: seq<ItemID>)
    requires h.controlled
    ensures Run(h, p, ids) == h
    ensures Value(Run(h, p, ids), p) == p.value
    decreases |ids|
  {
    if |ids| > 0 {
      ControlledIsPure(Toggle(h, p, ids[0]).hook, p, ids[1..]);
    }
  }

  /** With zero-collapse, toggling the open item closes everything, and toggling it
      again reopens it. */
  lemma CollapseThenReopen(h: Hook, p: Props, id: ItemID)
    requires !h.controlled && h.store == id && p.allowZeroCollapse
    ensures Toggle(h, p, id).hook.store == ""
    ensures Toggle(Toggle(h, p, id).hook, p, id).hook.store == id
  {
  }

  /** Without zero-collapse, toggling the open item leaves the state as it was. */
  lemma NoZeroCollapseKeepsOpen(h: Hook, p: Props, id: ItemID)
    requires !h.controlled && h.store == id && !p.allowZeroCollapse
    ensures Toggle(h, p, id).hook == h
  {
  }

  /** From an empty or visible value, toggling another item opens exactly that item,
      closing the previous one. */
  lemma OpenReplaces(h: Hook, p: Props, id: ItemID)
    requires !h.controlled && !Blank(h.store) && id != h.store
    ensures Toggle(h, p, id).hook.store == id
  {
  }

  /** A non-empty whitespace-only value freezes the selection: toggling any other id
      writes nothing, in either ownership mode. */
  lemma BlankFreezes(h: Hook, p: Props, id: ItemID)
    requires Value(h, p).Some? && Blank(Value(h, p).value) && id != Value(h, p).value
    ensures Toggle(h, p, id) == Step(h, None)
  {
  }

  /** The uncontrolled hook follows the single-mode contract exactly when it is not
      in the blank-value case of `BlankFreezes`. */
  lemma AgreesWithPolicyIff(h: Hook, p: Props, id: ItemID)
    requires !h.controlled
    ensures Toggle(h, p, id).hook.store == PolicyToggle(h.store, p.allowZeroCollapse, id)
        <==> !(Blank(h.store) && id != h.store)
  {
  }

  /** Starting from nothing open or one of `items`, and toggling only ids of `items`,
      the open value stays "" or one of `items`; without zero-collapse, once an item
      is open some item stays open. */
  lemma {:induction false} RunStaysAmongItems(h: Hook, p: Props, items: set<ItemID>, ids: seq<ItemID>)
    requires !h.controlled
    requires h.store == "" || h.store in items
    requires forall k :: 0 <= k < |ids| ==> ids[k] in items
    ensures Run(h, p, ids).store == "" || Run(h, p, ids).store in items
    ensures !p.allowZeroCollapse && h.store != "" && "" !in items ==> Run(h, p, ids).store != ""
    decreases |ids|
  {
    if |ids| > 0 {
      var next := Toggle(h, p, ids[0]).hook;
      assert next.store == "" || next.store == ids[0] || next.store == h.store;
      RunStaysAmongItems(next, p, items, ids[1..]);
    }
  }
}

=== FILE: wrappers.dfy ===
/** Failure-compatible wrappers shared by the model: an optional value (JavaScript's
    `undefined`/`null` versus a present value) and a result that carries either a
    value or the message of a thrown `Error`. */
module Wrappers {

  datatype Option<+T> = None | Some(value: T) {

    /** The value when present, otherwise `default` (the `x || default` idiom). */
    function GetOr(default: T): T {
      match this
      case Some(v) => v
      case None => default
    }
  }

  datatype Result<+R, +E> = Success(value: R) | Failure(error: E)
}
